=== FILE: README.md ===
# Story-time client core, modelled in Dafny

The client is an interactive-fiction front end. The player picks a genre, a
chat session with a generative model narrates a scene and offers choices,
and each choice is sent back as the next message until the story ends. This
project models the two pieces of logic in it:

- the **conversation adapter** (`GeminiService`): the system instruction a
  session is created with, the message sent for a choice, and the handling
  of the reply in `continueStory`. That handling rejects empty text, strips
  the ```` ```json ```` and ```` ``` ```` markers, trims, parses and checks the
  three required fields. Every failure becomes one error;
- the **screen state machine** (`App`): the screen, the transcript
  (`storyHistory`), the offered choices, the error text and the session
  reference, changed by `handleStartGame`, `handleMakeChoice` and
  `handleRestart`, and shown by `renderContent`.

The remote call and the JSON parser are parameters. `send: string -> SendOutcome`
is the transport's answer to a message: a failure, or a reply whose text may
be missing. `parse: string -> Option<JsonValue>` is `JSON.parse`, with `None`
when it throws. A settled turn is a `TurnOutcome`: either the validated,
unchanged parsed value or the thrown value. The session is an opaque value
recording the configuration it was created with.

Modules, one per concern:

| file | module | models |
|---|---|---|
| wrappers.dfy | `Wrappers` | `Option` (absent values) and `Result` |
| json.dfy | `Json` | parsed JSON values and property access (`v.key`, `typeof`, `Array.isArray`) |
| response_text.dfy | `ResponseText` | `replace(/```json\|```/g, '')` and `trim()` |
| game_types.dfy | `GameTypes` | `GameState`, `StorySegment`, `GeminiResponse` of `types.ts` |
| gemini_service.dfy | `GeminiService` | `startChat`, `continueStory`, the response schema |
| app.dfy | `App` | the component state, its handlers, `renderContent`, runs of user actions |

Two points where the code behaves unlike a reader might expect:

- Restart only sets the Start screen and drops the session. The transcript,
  choices and error text stay. `App.RestartLeftoversUnobservable` shows that
  this is invisible: the Start screen shows none of it, and the next start
  overwrites all of it.
- The opening turn always lands on Playing, even when `isGameOver` is true.
  So an opening reply that ends the game and offers no choices leaves a
  screen with no callback at all (`App.OpeningGameOverStrands`).

The modelled files contain no image-generation code, so there is none here.

## Model

| member | source | states |
|---|---|---|
| ResponseText.StripFences | services/geminiService.ts:63 | removing the markers never lengthens the text |
| ResponseText.StripLeavesNoFence | services/geminiService.ts:63 | after the global replacement no three backticks in a row remain anywhere, even where removals bring backticks together |
| ResponseText.StripFixesFenceFree | services/geminiService.ts:63 | text with no run of three backticks passes through the replacement unchanged |
| ResponseText.StripIdempotent | services/geminiService.ts:63 | replacing twice gives the same text as replacing once |
| ResponseText.StripPlainPrefix | services/geminiService.ts:63 | a backtick-free prefix is copied through and the rest is processed on its own |
| ResponseText.TrimStart | services/geminiService.ts:63 | the result is the suffix of the input left after dropping only whitespace, and starts with a non-whitespace character |
| ResponseText.TrimEnd | services/geminiService.ts:63 | the result is the prefix of the input left after dropping only whitespace, and ends with a non-whitespace character |
| ResponseText.Trim | services/geminiService.ts:63 | the result is a slice of the input from which only whitespace was removed, and only at the two ends; it has no leading or trailing whitespace, and equals an input that already has none |
| ResponseText.CleanText | services/geminiService.ts:63 | the text handed to the parser has no leading or trailing whitespace and is no longer than the reply; what it is exactly is stated by the two lemmas below |
| ResponseText.CleanTrimsOnlyWhitespace | services/geminiService.ts:63 | the text handed to the parser is the stripped reply with whitespace removed from its two ends and nothing else removed |
| ResponseText.CleanLeavesNoFence | services/geminiService.ts:63 | the text handed to the parser contains no run of three backticks |
| ResponseText.CleanIdempotent | services/geminiService.ts:63 | cleaning an already cleaned text changes nothing |
| ResponseText.CleanFixesPlainText | services/geminiService.ts:63 | text with no fence and no surrounding whitespace is passed to the parser as it is |
| ResponseText.FencedPayloadRecovered | services/geminiService.ts:62-63 | a payload without backticks wrapped as ```` ```json ```` … ```` ``` ```` comes out as the trimmed payload |
| GameTypes.FromTag | types.ts:2-8 | a decoder from string values to members, which the TypeScript enum does not have; it exists here to state that the tags are distinct: whatever member it returns carries the given string |
| GameTypes.GameStateEnumeration | types.ts:2-8 | the screen enum has exactly five members: Start, Loading, Playing, GameOver and Error, each once |
| GameTypes.TagRoundTrip | types.ts:3-7 | each member's string value reads back as that member, so the five string values are distinct |
| GeminiService.SystemInstruction | services/geminiService.ts:38-45 | the instruction holds the genre verbatim between the fixed head and tail |
| GeminiService.InstructionNamesGenre | services/geminiService.ts:40 | the genre can be read back out of the instruction, and different genres give different instructions |
| GeminiService.StartChat | services/geminiService.ts:34-49 | the session is created for the fixed model, JSON replies, the response schema, and an instruction that names the genre |
| GeminiService.ChoiceMessage | services/geminiService.ts:54-56 | the message is the label `Player's choice: "`, then the choice, then a closing double quote |
| GeminiService.ChoiceMessageRoundTrip | services/geminiService.ts:55 | the choice can be read back out of the message, and different choices send different messages |
| GeminiService.SchemaImpliesValid | services/geminiService.ts:68-70 | every value that matches the declared response schema passes validation |
| GeminiService.ValidationSkipsElementTypes | services/geminiService.ts:68-70 | validation does not check element types: a `choices` array holding a number passes though the schema forbids it |
| GeminiService.ValidationIgnoresOtherKeys | services/geminiService.ts:68-70 | adding or replacing any key other than the three checked ones never changes whether an object passes |
| GeminiService.ValidHasRequiredKeys | services/geminiService.ts:68-70 | a value passes only if it is an object holding all three required schema keys |
| GeminiService.ToJson | types.ts:15-19 | the JSON form of a response matches the schema |
| GeminiService.FromJson | types.ts:15-19 | a JSON value is read as a response exactly when it matches the schema |
| GeminiService.ResponseJsonRoundTrip | types.ts:15-19 | a response read back from its JSON form is the same response, and the JSON form passes validation with the same three field values |
| GeminiService.InterpretReply | services/geminiService.ts:58-70 | transport failure, empty or missing text, parse failure and schema mismatch are told apart exactly; on success the parsed value is returned unchanged |
| GeminiService.ContinueStory | services/geminiService.ts:52-78 | the turn succeeds exactly when the reply to the choice message has non-empty text whose cleaned form parses to a conforming value; that value is returned unchanged; every failure throws the one fixed error |
| GeminiService.EmptyRejectedBeforeParsing | services/geminiService.ts:58-60 | missing or empty text is rejected whatever the parser would say, so the parser is never consulted |
| GeminiService.ParserSeesOnlyCleanText | services/geminiService.ts:63-65 | the verdict depends on the parser only through its value for the cleaned text |
| GeminiService.AllFailuresLookAlike | services/geminiService.ts:73-77 | any two failed turns, whatever the cause, throw the same error |
| GeminiService.FencedReplyAccepted | services/geminiService.ts:58-72 | a fenced JSON reply that parses to a response's JSON is accepted, and the response is recovered from the result |
| App.BeginStart | App.tsx:20-23 | starting sets Loading, clears the error, empties transcript and choices, and leaves the session reference alone |
| App.HandleStartGame | App.tsx:19-39 | composed of `BeginStart` and `FinishStart`: a successful opening turn gives Playing with a one-scene transcript and the reply's choices, whatever `isGameOver` says; a failure gives Error with an empty transcript and the message `ErrorMessageOf` takes from what was thrown: an `Error`'s own message, or "An unknown error occurred." for anything else; the session is kept even when only the turn failed |
| App.OpeningTurn | App.tsx:29 | the opening turn sends the message for the fixed input "Let's begin." and succeeds exactly when the reply to that message is accepted, returning the accepted value; a failure carries the service's fixed error |
| App.HandleMakeChoice | App.tsx:41-68 | composed of `BeginChoice` and `FinishChoice`: without a session the action ends on Error with the "not initialized" text and transcript and choices unchanged; success appends exactly the choice and the scene segment and sets GameOver with no choices or Playing with the reply's choices; failure keeps the appended choice and the old choices, and shows the message `ErrorMessageOf` takes from what was thrown: an `Error`'s own message, or "An unknown error occurred." for anything else |
| App.ChoiceTurn | App.tsx:52 | a choice turn sends the message for that choice and succeeds exactly when the reply to that message is accepted, returning the accepted value; a failure carries the service's fixed error |
| App.Restart | App.tsx:70-73 | restart sets Start and drops the session; transcript, choices and error text are unchanged |
| App.ErrorScreenMessage | App.tsx:93 | the error screen shows the stored text when it is non-empty, otherwise the unknown-error text, so never an empty message |
| App.RenderContent | App.tsx:75-97 | each state has its own screen; Playing and GameOver share the game screen with the state's transcript and choices, flagged as over exactly on GameOver; the Error screen shows the fallback-aware message |
| App.Offers | components/GameScreen.tsx:48-69 | exactly the actions the screens expose: nothing while Loading; restart only on the Error screen and the finished game screen; on the unfinished game screen, exactly one choice per string in `choices`; on the Start screen, start for exactly the non-empty genres |
| App.ScreenCallbacks | components/GameScreen.tsx:48-69 | in the Loading state no action is enabled; in Playing restart is never enabled; in GameOver and Error exactly restart is enabled |
| App.ChoiceOnlyFromPlaying | components/GameScreen.tsx:48-58 | a choice button exists only on the Playing screen and only for a choice on offer |
| App.Step | App.tsx:19-73 | every settled user action leaves the client off the Loading screen, and restart always lands on Start |
| App.InitialInv | App.tsx:13-17 | the initial state satisfies the invariant of settled states |
| App.StepKeepsInv | App.tsx:19-73 | each offered action keeps the invariant. Start has no session, Playing and GameOver have a session, no error and a scene last, GameOver has no choices, Error has a message, and every segment has exactly one field |
| App.RunKeepsInv | App.tsx:19-73 | every state reached through offered actions satisfies the invariant |
| App.ReachableChoiceHasSession | App.tsx:42-46 | through the screens a choice is never made without a session, so the "not initialized" branch is unreachable |
| App.HistoryOnlyGrows | App.tsx:49-54 | between two starts the transcript only grows by appends; earlier segments are never changed |
| App.NoSessionRequestsNoTurn | App.tsx:42-46 | with no session, the turn result is never looked at, so no turn is requested |
| App.RestartLeftoversUnobservable | App.tsx:70-78 | after restart the Start screen shows nothing of the old game, and the next start behaves exactly as from the initial state |
| App.FailedOpeningShowsFailureMessage | App.tsx:34-37 | a failed opening turn reaches the error screen showing the service's fixed failure message |
| App.FailedChoiceShowsFailureMessage | App.tsx:63-66 | a failed choice turn from the Playing screen with a session reaches the error screen showing the service's fixed failure message, whatever the opening turn on the same transport did |
| App.OpeningGameOverStrands | App.tsx:31-33 | an opening reply with `isGameOver` true and no choices lands on a Playing screen that offers no action |
| App.CyberpunkOpening | App.tsx:29-33 | a Cyberpunk opening reply with two choices gives Playing, one scene segment, those two choices and the Cyberpunk session |

## Left out

- The SDK calls `ai.chats.create` and `chat.sendMessage` are foreign library code and network I/O. The session records its configuration, and each turn's reply is the `send` parameter. A throwing `startChat` is the `CreateThrew` start result.
- `JSON.parse` is a library parser. It is the `parse` parameter.
- GeminiService.ResponseSchema: keeps each property's name and type but drops the three `description` strings (services/geminiService.ts:17, 21, 26). They are sent to the service with the schema, but they only guide the model's wording, and no check in the code reads them.
- JSON numbers are integers in `Json.JsonValue`. No decision depends on a number's value.
- The module-load `API_KEY` check (services/geminiService.ts:6-8) is environment configuration.
- The internal messages "Received an empty response from the AI." and "AI response does not match the required schema." only reach the log: the catch replaces them. They are the `Rejection` reasons. `console.error` is left out.
- Reading `.scene` on a parsed `null` throws a `TypeError` inside the `try`. The model treats a non-object as lacking the field. Both end in the same thrown error.
- async/await, `useState`, `useRef` and `useCallback` are flattened. Each handler is a function for the work before the `await` (`BeginStart`, `BeginChoice`) and one for the work after it (`FinishStart`, `FinishChoice`). Since no screen exposes a callback while Loading, a run of user actions uses their compositions.
- App.Offers: offers buttons only for string elements of `choices`, and a turn's choice is always a string.
  - A `null`, number, boolean or nested-array element still gets a button, and that button passes the non-string value to `handleMakeChoice` (components/GameScreen.tsx:50-57).
  - An object element makes React throw while rendering `{choice}` (components/GameScreen.tsx:56). No error boundary appears in these files, so the whole component tree unmounts, not just one button.
  - Neither behaviour is modelled.
- JSX, CSS, the scroll effect and the newline-to-`<br />` substitution in components/GameScreen.tsx are presentation. So are components/LoadingScreen.tsx (timer and random message), components/Header.tsx and components/ErrorScreen.tsx.
- The genre list in components/StartScreen.tsx is a UI constant. The genre is any string; only the non-empty check before `onStart` is kept.
- Restart does not clear the transcript, choices or error, and a Playing screen can offer no choices; the model follows the code.

=== FILE: app.dfy ===
/** The screen state machine of the single-page client: what each user
    action and each turn result does to the screen, the transcript, the
    choices, the error text and the session reference. Turn results are
    inputs; the asynchronous sequencing is flattened into functions that
    run the part before the `await` and the part after it. */
module App {
  import opened Wrappers
  import opened Json
  import opened GameTypes
  import opened GeminiService

  /** The input of the opening turn. */
  const OpeningInput: string := "Let's begin."
  const SessionMissingMessage: string := "Chat session not initialized."
  const UnknownErrorMessage: string := "An unknown error occurred."

  /** The component state: the screen, the transcript, the offered choices
      (as parsed: validation does not check their element type), the error
      text and the session reference. */
  datatype AppState = AppState(
    gameState: GameState,
    storyHistory: seq<StorySegment>,
    choices: seq<JsonValue>,
    error: Option<string>,
    session: Option<Session>)

  const Initial: AppState := AppState(Start, [], [], None, None)

  /** `err instanceof Error ? err.message : "An unknown error occurred."` */
  function ErrorMessageOf(t: Thrown): string {
    match t
    case ErrorInstance(message) => message
    case NonErrorValue => UnknownErrorMessage
  }

  // -----------------------------------------------------------------------
  // Starting a game

  /** What the `try` of `handleStartGame` gets: `startChat` itself threw,
      or the session was created and the opening turn produced an outcome. */
  datatype StartResult = CreateThrew(thrown: Thrown) | Opened(opening: TurnOutcome)

  /** The updates made before any session or turn is requested. */
  function BeginStart(s: AppState): (t: AppState)
    ensures t.gameState == Loading && t.error.None?
    ensures t.storyHistory == [] && t.choices == []
    ensures t.session == s.session
  {
    s.(gameState := Loading, error := None, storyHistory := [], choices := [])
  }

  /** The updates made once the session exists and the opening turn is
      settled. The session reference is stored before the turn is awaited,
      so it is kept even when the turn fails. */
  function FinishStart(s: AppState, genre: string, result: StartResult): (t: AppState)
  {
    match result
    case CreateThrew(e) => s.(error := Some(ErrorMessageOf(e)), gameState := Error)
    case Opened(Answered(v)) =>
      s.(session := Some(StartChat(genre)),
         storyHistory := [SceneSegment(SceneOf(v))],
         choices := ChoicesOf(v),
         gameState := Playing)
    case Opened(Threw(e)) =>
      s.(session := Some(StartChat(genre)), error := Some(ErrorMessageOf(e)), gameState := Error)
  }

  /** `handleStartGame`. A successful opening turn always lands on the
      Playing screen, whatever its `isGameOver` says. */
  function HandleStartGame(s: AppState, genre: string, result: StartResult): (t: AppState)
    ensures t.session == (if result.CreateThrew? then s.session else Some(StartChat(genre)))
    ensures result.Opened? && result.opening.Answered? ==>
      var v := result.opening.response;
      && t.gameState == Playing
      && t.storyHistory == [SceneSegment(SceneOf(v))]
      && t.choices == ChoicesOf(v)
      && t.error.None?
    ensures !(result.Opened? && result.opening.Answered?) ==>
      && t.gameState == Error
      && t.storyHistory == [] && t.choices == []
      && t.error == Some(ErrorMessageOf(if result.CreateThrew? then result.thrown else result.opening.thrown))
  {
    FinishStart(BeginStart(s), genre, result)
  }

  /** The opening turn as the service performs it once the session exists:
      the message for the fixed opening input is sent, and its reply is
      interpreted. `send` is the new session's answer to a message. */
  function OpeningTurn(send: string -> SendOutcome, parse: string -> Option<JsonValue>): (r: StartResult)
    ensures r.Opened?
    ensures var reply := InterpretReply(send(ChoiceMessage(OpeningInput)), parse);
      && (r.opening.Answered? <==> reply.Success?)
      && (r.opening.Answered? ==> r.opening.response == reply.value)
    ensures r.opening.Threw? ==> r.opening.thrown == ErrorInstance(FailureMessage)
  {
    Opened(ContinueStory(OpeningInput, send, parse))
  }

  // -----------------------------------------------------------------------
  // Making a choice

  /** The updates made before the turn is requested: without a session the
      action ends on the Error screen; otherwise the choice is appended to
      the transcript at once. */
  function BeginChoice(s: AppState, choice: string): AppState {
    if s.session.None? then s.(error := Some(SessionMissingMessage), gameState := Error)
    else s.(gameState := Loading, storyHistory := s.storyHistory + [ChoiceSegment(choice)])
  }

  /** The updates made once the turn is settled. A failure keeps the
      transcript, with the choice already appended. */
  function FinishChoice(s: AppState, outcome: TurnOutcome): (t: AppState)
  {
    match outcome
    case Answered(v) =>
      var history := s.storyHistory + [SceneSegment(SceneOf(v))];
      if IsGameOverOf(v) then s.(storyHistory := history, choices := [], gameState := GameOver)
      else s.(storyHistory := history, choices := ChoicesOf(v), gameState := Playing)
    case Threw(e) => s.(error := Some(ErrorMessageOf(e)), gameState := Error)
  }

  /** `handleMakeChoice`, reachable only from the Playing screen. */
  function HandleMakeChoice(s: AppState, choice: string, outcome: TurnOutcome): (t: AppState)
    requires s.gameState == Playing
    ensures t.session == s.session
    ensures s.session.None? ==>
      && t.gameState == Error && t.error == Some(SessionMissingMessage)
      && t.storyHistory == s.storyHistory && t.choices == s.choices
    ensures s.session.Some? && outcome.Answered? ==>
      var v := outcome.response;
      && t.storyHistory == s.storyHistory + [ChoiceSegment(choice), SceneSegment(SceneOf(v))]
      && t.error == s.error
      && (IsGameOverOf(v) ==> t.gameState == GameOver && t.choices == [])
      && (!IsGameOverOf(v) ==> t.gameState == Playing && t.choices == ChoicesOf(v))
    ensures s.session.Some? && outcome.Threw? ==>
      && t.storyHistory == s.storyHistory + [ChoiceSegment(choice)]
      && t.choices == s.choices
      && t.gameState == Error && t.error == Some(ErrorMessageOf(outcome.thrown))
  {
    var t := BeginChoice(s, choice);
    if s.session.None? then t else FinishChoice(t, outcome)
  }

  /** The turn for a choice as the service performs it: the message for
      the choice itself is sent on the stored session, and its reply is
      interpreted. `send` is that session's answer to a message. */
  function ChoiceTurn(choice: string, send: string -> SendOutcome, parse: string -> Option<JsonValue>): (r: TurnOutcome)
    ensures var reply := InterpretReply(send(ChoiceMessage(choice)), parse);
      && (r.Answered? <==> reply.Success?)
      && (r.Answered? ==> r.response == reply.value)
    ensures r.Threw? ==> r.thrown == ErrorInstance(FailureMessage)
  {
    ContinueStory(choice, send, parse)
  }

  // -----------------------------------------------------------------------
  // Restarting

  /** `handleRestart`: back to the Start screen without a session. The
      transcript, the choices and the error text are left as they were. */
  function Restart(s: AppState): (t: AppState)
    ensures t.gameState == Start && t.session.None?
    ensures t.storyHistory == s.storyHistory && t.choices == s.choices && t.error == s.error
  {
    s.(gameState := Start, session := None)
  }

  // -----------------------------------------------------------------------
  // Rendering and the callbacks each screen offers

  datatype Screen =
    | StartScreen
    | LoadingScreen
    | GameScreen(storyHistory: seq<StorySegment>, choices: seq<JsonValue>, isGameOver: bool)
    | ErrorScreen(message: string)

  /** `error || "An unknown error occurred."`: an empty string is falsy and
      falls back too, so the message shown is never empty. */
  function ErrorScreenMessage(error: Option<string>): (m: string)
    ensures m != ""
    ensures error.Some? && error.value != "" ==> m == error.value
    ensures error.None? || error.value == "" ==> m == UnknownErrorMessage
  {
    if error.Some? && error.value != "" then error.value else UnknownErrorMessage
  }

  /** `renderContent`: one screen per state; Playing and GameOver share the
      game screen, told apart by its `isGameOver` flag. */
  function RenderContent(s: AppState): (screen: Screen)
    ensures screen.StartScreen? <==> s.gameState == Start
    ensures screen.LoadingScreen? <==> s.gameState == Loading
    ensures screen.GameScreen? <==> s.gameState == Playing || s.gameState == GameOver
    ensures screen.GameScreen? ==>
      && screen.storyHistory == s.storyHistory && screen.choices == s.choices
      && (screen.isGameOver <==> s.gameState == GameOver)
    ensures screen.ErrorScreen? <==> s.gameState == Error
    ensures screen.ErrorScreen? ==> screen.message == ErrorScreenMessage(s.error)
  {
    match s.gameState
    case Start => StartScreen
    case Loading => LoadingScreen
    case Playing => GameScreen(s.storyHistory, s.choices, false)
    case GameOver => GameScreen(s.storyHistory, s.choices, true)
    case Error => ErrorScreen(ErrorScreenMessage(s.error))
  }

  /** A user action together with the result of the remote work it starts. */
  datatype Event =
    | StartGameEvent(genre: string, result: StartResult)
    | ChoiceEvent(choice: string, outcome: TurnOutcome)
    | RestartEvent

  /** The callbacks a screen exposes: the start button (only for a
      non-empty genre), one button per string choice while the game is not
      over, and a restart button on the game-over and error screens. The
      loading screen exposes none. */
  predicate Offers(screen: Screen, e: Event)
    ensures Offers(screen, e) ==> !screen.LoadingScreen?
    ensures Offers(screen, e) && e.RestartEvent? ==>
      screen.ErrorScreen? || (screen.GameScreen? && screen.isGameOver)
    ensures Offers(screen, e) && e.ChoiceEvent? ==> screen.GameScreen? && !screen.isGameOver
    ensures Offers(screen, e) && e.StartGameEvent? ==> screen.StartScreen? && e.genre != ""
    ensures screen.GameScreen? && !screen.isGameOver && e.ChoiceEvent? && JString(e.choice) in screen.choices ==>
      Offers(screen, e)
    ensures screen.StartScreen? && e.StartGameEvent? && e.genre != "" ==> Offers(screen, e)
    ensures Offers(screen, e) && e.ChoiceEvent? ==> JString(e.choice) in screen.choices
    ensures e.RestartEvent? && (screen.ErrorScreen? || (screen.GameScreen? && screen.isGameOver)) ==>
      Offers(screen, e)
  {
    match screen
    case StartScreen => e.StartGameEvent? && e.genre != ""
    case LoadingScreen => false
    case GameScreen(_, choices, isGameOver) =>
      if isGameOver then e.RestartEvent? else e.ChoiceEvent? && JString(e.choice) in choices
    case ErrorScreen(_) => e.RestartEvent?
  }

  predicate Enabled(s: AppState, e: Event) {
    Offers(RenderContent(s), e)
  }

  /** A choice can only be made from the Playing screen, and only a
      choice on offer. */
  lemma ChoiceOnlyFromPlaying(s: AppState, e: Event)
    requires Enabled(s, e) && e.ChoiceEvent?
    ensures s.gameState == Playing
    ensures JString(e.choice) in s.choices
  {
  }

  /** The Loading screen offers no action at all, and the Playing screen
      never offers restart: its "Play Again" button appears only once the
      game is over. */
  lemma ScreenCallbacks(s: AppState, e: Event)
    ensures s.gameState == Loading ==> !Enabled(s, e)
    ensures s.gameState == Playing ==> !(Enabled(s, e) && e.RestartEvent?)
    ensures s.gameState == GameOver || s.gameState == Error ==> (Enabled(s, e) <==> e.RestartEvent?)
  {
  }

  /** One user action, with its remote work settled. */
  function Step(s: AppState, e: Event): (t: AppState)
    requires Enabled(s, e)
    ensures e.RestartEvent? ==> t.gameState == Start
    ensures t.gameState != Loading
  {
    match e
    case StartGameEvent(genre, result) => HandleStartGame(s, genre, result)
    case ChoiceEvent(choice, outcome) => HandleMakeChoice(s, choice, outcome)
    case RestartEvent => Restart(s)
  }

  /** A sequence of actions; None when some action is not on offer. */
  function Run(s: AppState, es: seq<Event>): (r: Option<AppState>)
    ensures es == [] ==> r == Some(s)
    decreases |es|
  {
    if es == [] then Some(s)
    else if !Enabled(s, es[0]) then None
    else Run(Step(s, es[0]), es[1..])
  }

  // -----------------------------------------------------------------------
  // Invariants of the reachable states

  predicate SegmentsWellFormed(h: seq<StorySegment>) {
    forall i :: 0 <= i < |h| ==> SingleField(h[i])
  }

  /** What holds whenever no remote work is outstanding. */
  predicate Inv(s: AppState) {
    && s.gameState != Loading
    && (s.gameState == Start ==> s.session.None?)
    && (s.gameState == Playing || s.gameState == GameOver ==>
          && s.session.Some? && s.error.None?
          && |s.storyHistory| > 0
          && s.storyHistory[|s.storyHistory| - 1].scene.Some?)
    && (s.gameState == GameOver ==> s.choices == [])
    && (s.gameState == Error ==> s.error.Some?)
    && SegmentsWellFormed(s.storyHistory)
  }

  lemma InitialInv()
    ensures Inv(Initial)
  {
  }

  lemma StepKeepsInv(s: AppState, e: Event)
    requires Inv(s) && Enabled(s, e)
    ensures Inv(Step(s, e))
  {
    var t := Step(s, e);
    match e
    case StartGameEvent(genre, result) =>
    case ChoiceEvent(choice, outcome) =>
      assert s.session.Some?;
      var h := t.storyHistory;
      assert SegmentsWellFormed(h) by {
        forall i | 0 <= i < |h| ensures SingleField(h[i]) {
          if i < |s.storyHistory| {
            assert h[i] == s.storyHistory[i];
          }
        }
      }
    case RestartEvent =>
  }

  /** Every state reached from the initial one by actions the screens
      offer satisfies the invariant. */
  lemma {:induction false} RunKeepsInv(s: AppState, es: seq<Event>)
    requires Inv(s)
    ensures Run(s, es).Some? ==> Inv(Run(s, es).value)
    decreases |es|
  {
    if es != [] && Enabled(s, es[0]) {
      StepKeepsInv(s, es[0]);
      RunKeepsInv(Step(s, es[0]), es[1..]);
    }
  }

  /** Through the screens, a choice is never made without a session: the
      "session not initialized" branch is unreachable. */
  lemma ReachableChoiceHasSession(es: seq<Event>, e: Event)
    requires Run(Initial, es).Some?
    requires Enabled(Run(Initial, es).value, e) && e.ChoiceEvent?
    ensures Run(Initial, es).value.session.Some?
  {
    RunKeepsInv(Initial, es);
  }

  // -----------------------------------------------------------------------
  // The transcript

  predicate IsPrefix(a: seq<StorySegment>, b: seq<StorySegment>) {
    |a| <= |b| && b[..|a|] == a
  }

  predicate NoStart(es: seq<Event>) {
    forall i :: 0 <= i < |es| ==> !es[i].StartGameEvent?
  }

  /** Between two starts the transcript only grows by appends: earlier
      segments are never changed or removed. */
  lemma {:induction false} HistoryOnlyGrows(s: AppState, es: seq<Event>)
    requires NoStart(es)
    ensures Run(s, es).Some? ==> IsPrefix(s.storyHistory, Run(s, es).value.storyHistory)
    decreases |es|
  {
    if es != [] && Enabled(s, es[0]) {
      var t := Step(s, es[0]);
      assert IsPrefix(s.storyHistory, t.storyHistory) by {
        if es[0].ChoiceEvent? {
          assert t.storyHistory[..|s.storyHistory|] == s.storyHistory;
        }
      }
      assert NoStart(es[1..]) by {
        forall i | 0 <= i < |es[1..]| ensures !es[1..][i].StartGameEvent? {
          assert es[1..][i] == es[i + 1];
        }
      }
      HistoryOnlyGrows(t, es[1..]);
      if Run(s, es).Some? {
        var u := Run(s, es).value.storyHistory;
        assert u[..|t.storyHistory|] == t.storyHistory;
        assert u[..|s.storyHistory|] == t.storyHistory[..|s.storyHistory|];
      }
    }
  }

  /** Without a session no turn is requested: the turn result is never
      looked at. */
  lemma NoSessionRequestsNoTurn(s: AppState, choice: string, o: TurnOutcome, o': TurnOutcome)
    requires s.gameState == Playing && s.session.None?
    ensures HandleMakeChoice(s, choice, o) == HandleMakeChoice(s, choice, o')
  {
  }

  // -----------------------------------------------------------------------
  // Restart and the next start

  /** What restart leaves behind is never seen: the Start screen shows
      none of it, and the next start overwrites all of it. */
  lemma RestartLeftoversUnobservable(s: AppState, genre: string, result: StartResult)
    ensures RenderContent(Restart(s)) == StartScreen
    ensures HandleStartGame(Restart(s), genre, result) == HandleStartGame(Initial, genre, result)
  {
  }

  // -----------------------------------------------------------------------
  // Turn results seen through the screens

  /** A failed opening turn reaches the error screen with the service's
      one failure message. */
  lemma FailedOpeningShowsFailureMessage(s: AppState, genre: string,
                                         send: string -> SendOutcome, parse: string -> Option<JsonValue>)
    requires ContinueStory(OpeningInput, send, parse).Threw?
    ensures RenderContent(HandleStartGame(s, genre, OpeningTurn(send, parse))) == ErrorScreen(FailureMessage)
  {
  }

  /** A failed choice turn from the Playing screen reaches the error
      screen with the service's one failure message, whatever the opening
      turn did. */
  lemma FailedChoiceShowsFailureMessage(s: AppState, choice: string,
                                        send: string -> SendOutcome, parse: string -> Option<JsonValue>)
    requires s.gameState == Playing && s.session.Some?
    requires ContinueStory(choice, send, parse).Threw?
    ensures RenderContent(HandleMakeChoice(s, choice, ChoiceTurn(choice, send, parse))) == ErrorScreen(FailureMessage)
  {
  }

  /** A Playing screen whose choices hold no string offers no callback at
      all. An opening reply with `isGameOver` set and no choices leads
      there, since the opening turn ignores `isGameOver`. */
  lemma OpeningGameOverStrands(genre: string, scene: string)
    ensures var t := HandleStartGame(Initial, genre, Opened(Answered(ToJson(GeminiResponse(scene, [], true)))));
      && t.gameState == Playing
      && forall e: Event :: !Enabled(t, e)
  {
    var r := GeminiResponse(scene, [], true);
    ResponseJsonRoundTrip(r);
    var t := HandleStartGame(Initial, genre, Opened(Answered(ToJson(r))));
    assert t.choices == [];
  }

  /** The opening example: a Cyberpunk game whose first reply offers two
      choices lands on Playing with one scene segment and those choices. */
  lemma CyberpunkOpening()
    ensures var r := GeminiResponse("Neon rain falls...", ["Enter the alley", "Hail a cab"], false);
      var t := HandleStartGame(Initial, "Cyberpunk", Opened(Answered(ToJson(r))));
      && t.gameState == Playing
      && t.storyHistory == [SceneSegment("Neon rain falls...")]
      && t.choices == [JString("Enter the alley"), JString("Hail a cab")]
      && t.session == Some(StartChat("Cyberpunk"))
  {
    var r := GeminiResponse("Neon rain falls...", ["Enter the alley", "Hail a cab"], false);
    ResponseJsonRoundTrip(r);
  }
}

=== FILE: game_types.dfy ===
/** The shared types of the client: screen states and transcript segments. */
module GameTypes {
  import opened Wrappers

  /** The five screens; exactly one is active at a time. */
  datatype GameState = Start | Loading | Playing | GameOver | Error

  /** The string value each enum member carries. */
  function Tag(g: GameState): string {
    match g
    case Start => "start"
    case Loading => "loading"
    case Playing => "playing"
    case GameOver => "gameOver"
    case Error => "error"
  }

  /** The enum member carrying a given string value, if any. */
  function FromTag(t: string): (r: Option<GameState>)
    ensures r.Some? ==> Tag(r.value) == t
  {
    if t == "start" then Some(Start)
    else if t == "loading" then Some(Loading)
    else if t == "playing" then Some(Playing)
    else if t == "gameOver" then Some(GameOver)
    else if t == "error" then Some(Error)
    else None
  }

  const AllGameStates: seq<GameState> := [Start, Loading, Playing, GameOver, Error]

  /** The enum has exactly five members, listed once each. */
  lemma GameStateEnumeration(g: GameState)
    ensures g in AllGameStates
    ensures |AllGameStates| == 5
    ensures forall i, j :: 0 <= i < j < |AllGameStates| ==> AllGameStates[i] != AllGameStates[j]
  {
  }

  /** Reading back a member's string value gives the member, so distinct
      members carry distinct strings. */
  lemma TagRoundTrip(g: GameState, h: GameState)
    ensures FromTag(Tag(g)) == Some(g)
    ensures g != h ==> Tag(g) != Tag(h)
  {
  }

  /** One entry of the transcript. Both fields are optional in the type;
      the client only ever fills in exactly one of them. */
  datatype StorySegment = StorySegment(scene: Option<string>, choice: Option<string>)

  /** The segment `{ scene }`. */
  function SceneSegment(scene: string): StorySegment {
    StorySegment(Some(scene), None)
  }

  /** The segment `{ choice }`. */
  function ChoiceSegment(choice: string): StorySegment {
    StorySegment(None, Some(choice))
  }

  /** Exactly one of the two optional fields is present. */
  predicate SingleField(seg: StorySegment) {
    seg.scene.Some? != seg.choice.Some?
  }

  /** The declared shape of a turn reply: three required fields. */
  datatype GeminiResponse = GeminiResponse(scene: string, choices: seq<string>, isGameOver: bool)
}

=== FILE: gemini_service.dfy ===
/** The adapter around the chat session: the system instruction a session
    is created with, the message sent for a choice, and the cleaning and
    validation of the reply. The SDK's `sendMessage` and `JSON.parse` are
    parameters: `send` gives the transport's answer to a message and
    `parse` gives the parser's value for a text (None when it throws). */
module GeminiService {
  import opened Wrappers
  import opened Json
  import opened GameTypes
  import opened ResponseText

  const ModelName: string := "gemini-2.5-flash"
  const ResponseMimeType: string := "application/json"

  // -----------------------------------------------------------------------
  // The response schema handed to the SDK

  datatype FieldType = StringType | ArrayOfStrings | BooleanType
  datatype SchemaField = SchemaField(name: string, fieldType: FieldType)

  /** The three properties the schema declares, all of them required. */
  const ResponseSchema: seq<SchemaField> := [
    SchemaField("scene", StringType),
    SchemaField("choices", ArrayOfStrings),
    SchemaField("isGameOver", BooleanType)
  ]

  predicate FieldMatches(v: JsonValue, f: SchemaField) {
    match f.fieldType
    case StringType => IsStringField(v, f.name)
    case ArrayOfStrings => IsArrayField(v, f.name) && AllStrings(v.fields[f.name].items)
    case BooleanType => IsBoolField(v, f.name)
  }

  /** `v` has every field of the schema, each of the declared type,
      including the element type of `choices`. */
  predicate MatchesSchema(v: JsonValue) {
    forall i :: 0 <= i < |ResponseSchema| ==> FieldMatches(v, ResponseSchema[i])
  }

  // -----------------------------------------------------------------------
  // Session creation

  const Indent: string := "                "

  /** The system instruction up to the interpolated genre. */
  const InstructionHead: string :=
    "You are a world-class dungeon master for a dynamic, text-based adventure game.\n"
    + Indent + "Your role is to generate a rich, compelling, and ever-unfolding story based on the player's choices.\n"
    + Indent + "The theme of the adventure is: "

  /** The system instruction after the interpolated genre. */
  const InstructionTail: string :=
    ".\n"
    + Indent + "You must always respond with a JSON object that adheres to the provided schema.\n"
    + Indent + "The 'scene' should be descriptive and immersive.\n"
    + Indent + "The 'choices' should be meaningful and lead to different outcomes.\n"
    + Indent + "Only set 'isGameOver' to true for a conclusive ending (victory or defeat). Do not end the game prematurely.\n"
    + Indent + "Maintain a consistent tone and narrative throughout the adventure. Never break character."

  /** The system instruction for a genre: the genre appears verbatim
      between the fixed head and tail. */
  function SystemInstruction(genre: string): (r: string)
    ensures |r| == |InstructionHead| + |genre| + |InstructionTail|
    ensures r[|InstructionHead|..|InstructionHead| + |genre|] == genre
  {
    InstructionHead + genre + InstructionTail
  }

  /** Reads the genre back out of a system instruction. */
  function GenreOf(instruction: string): (r: Option<string>)
    ensures r.Some? ==> |r.value| + |InstructionHead| + |InstructionTail| == |instruction|
  {
    var n := |instruction|;
    if n >= |InstructionHead| + |InstructionTail|
       && instruction[..|InstructionHead|] == InstructionHead
       && instruction[n - |InstructionTail|..] == InstructionTail
    then Some(instruction[|InstructionHead|..n - |InstructionTail|])
    else None
  }

  /** The instruction names the genre it was built from, and only that one. */
  lemma InstructionNamesGenre(genre: string, other: string)
    ensures GenreOf(SystemInstruction(genre)) == Some(genre)
    ensures SystemInstruction(genre) == SystemInstruction(other) ==> genre == other
  {
    var r := SystemInstruction(genre);
    var n := |r|;
    assert r[..|InstructionHead|] == InstructionHead;
    assert r[n - |InstructionTail|..] == InstructionTail;
    assert r[|InstructionHead|..n - |InstructionTail|] == genre;
    if r == SystemInstruction(other) {
      assert r[|InstructionHead|..n - |InstructionTail|] == other;
    }
  }

  /** The configuration a chat session is created with. */
  datatype ChatConfig = ChatConfig(
    model: string,
    systemInstruction: string,
    responseMimeType: string,
    responseSchema: seq<SchemaField>)

  /** An opaque handle on the server-side conversation. */
  datatype Session = Session(config: ChatConfig)

  /** `startChat`: a session for the fixed model, JSON replies under the
      response schema, and the genre's system instruction. */
  function StartChat(genre: string): (c: Session)
    ensures GenreOf(c.config.systemInstruction) == Some(genre)
    ensures c.config.model == ModelName && c.config.responseMimeType == ResponseMimeType
    ensures c.config.responseSchema == ResponseSchema
  {
    InstructionNamesGenre(genre, genre);
    Session(ChatConfig(ModelName, SystemInstruction(genre), ResponseMimeType, ResponseSchema))
  }

  // -----------------------------------------------------------------------
  // The outgoing message

  const ChoicePrefix: string := "Player's choice: \""

  /** The message sent for a choice: the choice in double quotes after a
      fixed label. */
  function ChoiceMessage(choice: string): (m: string)
    ensures |m| == |ChoicePrefix| + |choice| + 1
    ensures m[..|ChoicePrefix|] == ChoicePrefix
    ensures m[|ChoicePrefix|..|m| - 1] == choice
    ensures m[|m| - 1] == '"'
  {
    ChoicePrefix + choice + "\""
  }

  /** Reads the choice back out of a message. */
  function ChoiceOfMessage(m: string): (r: Option<string>)
    ensures r.Some? ==> |m| == |ChoicePrefix| + |r.value| + 1
  {
    if |m| > |ChoicePrefix| && m[..|ChoicePrefix|] == ChoicePrefix && m[|m| - 1] == '"'
    then Some(m[|ChoicePrefix|..|m| - 1])
    else None
  }

  /** The message determines the choice: distinct choices send distinct
      messages. */
  lemma ChoiceMessageRoundTrip(choice: string, other: string)
    ensures ChoiceOfMessage(ChoiceMessage(choice)) == Some(choice)
    ensures ChoiceMessage(choice) == ChoiceMessage(other) ==> choice == other
  {
  }

  // -----------------------------------------------------------------------
  // Validation of the parsed reply

  /** The check `continueStory` applies: `scene` is a string, `choices` an
      array and `isGameOver` a boolean. Element types of `choices` and any
      other keys are not looked at. */
  predicate Conforms(v: JsonValue) {
    IsStringField(v, "scene") && IsArrayField(v, "choices") && IsBoolField(v, "isGameOver")
  }

  /** A parsed value that passed validation, returned as it was parsed. */
  type ValidResponse = v: JsonValue | Conforms(v)
    witness JObject(map["scene" := JString(""), "choices" := JArray([]), "isGameOver" := JBool(false)])

  function SceneOf(v: ValidResponse): string { v.fields["scene"].str }
  function ChoicesOf(v: ValidResponse): seq<JsonValue> { v.fields["choices"].items }
  function IsGameOverOf(v: ValidResponse): bool { v.fields["isGameOver"].b }

  /** Everything the schema allows passes validation. */
  lemma SchemaImpliesValid(v: JsonValue)
    requires MatchesSchema(v)
    ensures Conforms(v)
  {
    assert FieldMatches(v, ResponseSchema[0]);
    assert FieldMatches(v, ResponseSchema[1]);
    assert FieldMatches(v, ResponseSchema[2]);
  }

  /** Validation is weaker than the schema: a `choices` array holding a
      number passes. */
  lemma ValidationSkipsElementTypes()
    ensures var v := JObject(map["scene" := JString("s"), "choices" := JArray([JNumber(1)]), "isGameOver" := JBool(false)]);
            Conforms(v) && !MatchesSchema(v)
  {
    var v := JObject(map["scene" := JString("s"), "choices" := JArray([JNumber(1)]), "isGameOver" := JBool(false)]);
    assert !FieldMatches(v, ResponseSchema[1]) by {
      assert !v.fields["choices"].items[0].JString?;
    }
  }

  /** Adding or replacing a key outside the three checked ones never changes
      the verdict on an object. */
  lemma ValidationIgnoresOtherKeys(fields: map<string, JsonValue>, key: string, x: JsonValue)
    requires key != "scene" && key != "choices" && key != "isGameOver"
    ensures Conforms(JObject(fields[key := x])) <==> Conforms(JObject(fields))
  {
  }

  /** Validation needs all three required keys to be present. */
  lemma ValidHasRequiredKeys(v: JsonValue)
    requires Conforms(v)
    ensures v.JObject?
    ensures forall i :: 0 <= i < |ResponseSchema| ==> ResponseSchema[i].name in v.fields
  {
  }

  // -----------------------------------------------------------------------
  // Conversion between the declared response type and JSON values

  function StringValues(ss: seq<string>): (r: seq<JsonValue>)
    ensures |r| == |ss| && AllStrings(r)
    ensures forall i :: 0 <= i < |ss| ==> r[i] == JString(ss[i])
  {
    if ss == [] then [] else [JString(ss[0])] + StringValues(ss[1..])
  }

  function StringsOf(items: seq<JsonValue>): (r: seq<string>)
    requires AllStrings(items)
    ensures |r| == |items|
    ensures forall i :: 0 <= i < |items| ==> items[i] == JString(r[i])
  {
    if items == [] then [] else [items[0].str] + StringsOf(items[1..])
  }

  /** The JSON object a well-behaved model would send for a response. */
  function ToJson(r: GeminiResponse): (v: ValidResponse)
    ensures MatchesSchema(v)
  {
    var v := JObject(map["scene" := JString(r.scene), "choices" := JArray(StringValues(r.choices)), "isGameOver" := JBool(r.isGameOver)]);
    assert FieldMatches(v, ResponseSchema[0]);
    assert FieldMatches(v, ResponseSchema[1]);
    assert FieldMatches(v, ResponseSchema[2]);
    SchemaImpliesValid(v);
    v
  }

  /** The declared response type read from a JSON value, when the value
      matches the schema. */
  function FromJson(v: JsonValue): (r: Option<GeminiResponse>)
    ensures r.Some? <==> MatchesSchema(v)
  {
    if MatchesSchema(v) then
      SchemaImpliesValid(v);
      assert FieldMatches(v, ResponseSchema[1]);
      Some(GeminiResponse(v.fields["scene"].str, StringsOf(v.fields["choices"].items), v.fields["isGameOver"].b))
    else None
  }

  /** Encoding a response and reading it back gives it back, and the
      encoding passes validation with the same three field values. */
  lemma ResponseJsonRoundTrip(r: GeminiResponse)
    ensures FromJson(ToJson(r)) == Some(r)
    ensures Conforms(ToJson(r))
    ensures SceneOf(ToJson(r)) == r.scene
    ensures ChoicesOf(ToJson(r)) == StringValues(r.choices)
    ensures IsGameOverOf(ToJson(r)) == r.isGameOver
  {
    var v := ToJson(r);
    SchemaImpliesValid(v);
    var back := StringsOf(StringValues(r.choices));
    assert back == r.choices;
  }

  // -----------------------------------------------------------------------
  // One turn

  /** What `sendMessage` produced: a transport failure, or a reply whose
      `text` may be missing. */
  datatype SendOutcome = SendFailed | Replied(text: Option<string>)

  /** A thrown value: an `Error` instance with its message, or anything else. */
  datatype Thrown = ErrorInstance(message: string) | NonErrorValue

  /** What awaiting a turn yields. */
  datatype TurnOutcome = Answered(response: ValidResponse) | Threw(thrown: Thrown)

  /** Why a reply was rejected. The reasons are only logged: the caller
      sees the same error for all of them. */
  datatype Rejection = TransportFailure | EmptyResponse | ParseFailure | SchemaMismatch

  /** `!response.text`: the text is missing or empty. */
  predicate EmptyText(reply: SendOutcome)
    requires reply.Replied?
  {
    reply.text.None? || reply.text.value == ""
  }

  /** The body of the `try` in `continueStory` after the message is sent:
      reject an empty text, clean it, parse it, validate it. */
  function InterpretReply(reply: SendOutcome, parse: string -> Option<JsonValue>): (r: Result<ValidResponse, Rejection>)
    ensures r == Failure(TransportFailure) <==> reply.SendFailed?
    ensures r == Failure(EmptyResponse) <==> reply.Replied? && EmptyText(reply)
    ensures r.Failure? && r.error in {ParseFailure, SchemaMismatch} ==> reply.Replied? && !EmptyText(reply)
    ensures reply.Replied? && !EmptyText(reply) ==>
      var parsed := parse(CleanText(reply.text.value));
      && (r == Failure(ParseFailure) <==> parsed.None?)
      && (r == Failure(SchemaMismatch) <==> parsed.Some? && !Conforms(parsed.value))
      && (r.Success? <==> parsed.Some? && Conforms(parsed.value))
      && (r.Success? ==> r.value == parsed.value)
  {
    if reply.SendFailed? then Failure(TransportFailure)
    else if EmptyText(reply) then Failure(EmptyResponse)
    else
      match parse(CleanText(reply.text.value))
      case None => Failure(ParseFailure)
      case Some(v) => if Conforms(v) then Success(v) else Failure(SchemaMismatch)
  }

  const FailureMessage: string := "Failed to get a valid story continuation from the AI."

  /** `continueStory`: send the choice message, and either return the
      parsed reply unchanged or throw the one failure error. */
  function ContinueStory(playerChoice: string, send: string -> SendOutcome, parse: string -> Option<JsonValue>): (r: TurnOutcome)
    ensures r.Threw? ==> r.thrown == ErrorInstance(FailureMessage)
    ensures var reply := send(ChoiceMessage(playerChoice));
      r.Answered? <==>
        && reply.Replied? && !EmptyText(reply)
        && parse(CleanText(reply.text.value)).Some?
        && Conforms(parse(CleanText(reply.text.value)).value)
    ensures r.Answered? ==> r.response == parse(CleanText(send(ChoiceMessage(playerChoice)).text.value)).value
  {
    match InterpretReply(send(ChoiceMessage(playerChoice)), parse)
    case Success(v) => Answered(v)
    case Failure(_) => Threw(ErrorInstance(FailureMessage))
  }

  /** An empty reply is rejected whatever the parser would have said: the
      parser is never consulted. */
  lemma EmptyRejectedBeforeParsing(reply: SendOutcome, parse: string -> Option<JsonValue>, parse': string -> Option<JsonValue>)
    requires reply.Replied? && EmptyText(reply)
    ensures InterpretReply(reply, parse) == InterpretReply(reply, parse') == Failure(EmptyResponse)
  {
  }

  /** The parser only ever sees the cleaned text: two parsers that agree on
      it give the same verdict. */
  lemma ParserSeesOnlyCleanText(reply: SendOutcome, parse: string -> Option<JsonValue>, parse': string -> Option<JsonValue>)
    requires reply.Replied? && !EmptyText(reply)
    requires parse(CleanText(reply.text.value)) == parse'(CleanText(reply.text.value))
    ensures InterpretReply(reply, parse) == InterpretReply(reply, parse')
  {
  }

  /** Every rejection reason surfaces as the same thrown error. */
  lemma AllFailuresLookAlike(choice: string, choice': string,
                             send: string -> SendOutcome, send': string -> SendOutcome,
                             parse: string -> Option<JsonValue>, parse': string -> Option<JsonValue>)
    requires ContinueStory(choice, send, parse).Threw?
    requires ContinueStory(choice', send', parse').Threw?
    ensures ContinueStory(choice, send, parse) == ContinueStory(choice', send', parse')
  {
  }

  /** A reply that wraps a response's JSON text in a ```` ```json ```` fence
      is accepted, and the response read back from it is the one encoded,
      provided the parser reads that text as the response. */
  lemma FencedReplyAccepted(choice: string, send: string -> SendOutcome, parse: string -> Option<JsonValue>,
                            payload: string, resp: GeminiResponse)
    requires NoBacktick(payload) && Trimmed(payload) && payload != ""
    requires send(ChoiceMessage(choice)) == Replied(Some(JsonFence + payload + Fence))
    requires parse(payload) == Some(ToJson(resp))
    ensures ContinueStory(choice, send, parse).Answered?
    ensures FromJson(ContinueStory(choice, send, parse).response) == Some(resp)
  {
    var text := JsonFence + payload + Fence;
    var reply := Replied(Some(text));
    assert |text| == |JsonFence| + |payload| + |Fence|;
    assert !EmptyText(reply);
    FencedPayloadRecovered(payload);
    assert CleanText(text) == payload;
    ResponseJsonRoundTrip(resp);
    var v := ToJson(resp);
    assert parse(CleanText(text)) == Some(v) && Conforms(v);
    var r := ContinueStory(choice, send, parse);
    assert r.Answered? && r.response == v;
  }
}

=== FILE: json.dfy ===
/** The values `JSON.parse` can produce, and property access on them. */
module Json {
  import opened Wrappers

  /** A parsed JSON document. Numbers are kept as integers: nothing in the
      model inspects them beyond their type. An object is a map because
      `JSON.parse` keeps only the last of several equal keys. */
  datatype JsonValue =
    | JNull
    | JBool(b: bool)
    | JNumber(n: int)
    | JString(str: string)
    | JArray(items: seq<JsonValue>)
    | JObject(fields: map<string, JsonValue>)

  /** The value of `v.key`: the member of an object, and `undefined` (None)
      for a missing key or a value that is not an object. */
  function Field(v: JsonValue, key: string): (r: Option<JsonValue>)
    ensures r.Some? <==> v.JObject? && key in v.fields
    ensures r.Some? ==> r.value == v.fields[key]
  {
    match v
    case JObject(fields) => if key in fields then Some(fields[key]) else None
    case _ => None
  }

  /** `typeof v.key === 'string'` */
  predicate IsStringField(v: JsonValue, key: string) {
    var f := Field(v, key); f.Some? && f.value.JString?
  }

  /** `Array.isArray(v.key)` */
  predicate IsArrayField(v: JsonValue, key: string) {
    var f := Field(v, key); f.Some? && f.value.JArray?
  }

  /** `typeof v.key === 'boolean'` */
  predicate IsBoolField(v: JsonValue, key: string) {
    var f := Field(v, key); f.Some? && f.value.JBool?
  }

  /** Every element of a JSON array is a string. */
  predicate AllStrings(items: seq<JsonValue>) {
    forall i :: 0 <= i < |items| ==> items[i].JString?
  }
}

=== FILE: response_text.dfy ===
/** The cleaning applied to the model's reply before it is parsed:
    `text.replace(/```json|```/g, '').trim()`. */
module ResponseText {

  const Fence: string := "```"
  const JsonFence: string := "```json"

  /** `s` starts with the three-backtick fence. */
  predicate StartsWithFence(s: string) {
    |s| >= 3 && s[0] == '`' && s[1] == '`' && s[2] == '`'
  }

  /** `s` starts with the fence-and-language tag ```` ```json ````. */
  predicate StartsWithJsonFence(s: string) {
    StartsWithFence(s) && |s| >= 7
    && s[3] == 'j' && s[4] == 's' && s[5] == 'o' && s[6] == 'n'
  }

  /** `s` contains three consecutive backticks somewhere. */
  predicate ContainsFence(s: string)
    decreases |s|
  {
    |s| >= 3 && (StartsWithFence(s) || ContainsFence(s[1..]))
  }

  predicate NoBacktick(s: string) {
    forall i :: 0 <= i < |s| ==> s[i] != '`'
  }

  /** The global replacement of the alternation ```` ```json|``` ```` by the
      empty string. The regular expression scans left to right; at each
      position the first alternative is tried before the second, and a
      position where neither matches keeps its character. */
  function StripFences(s: string): (r: string)
    ensures |r| <= |s|
    decreases |s|
  {
    if |s| == 0 then ""
    else if StartsWithJsonFence(s) then StripFences(s[7..])
    else if StartsWithFence(s) then StripFences(s[3..])
    else [s[0]] + StripFences(s[1..])
  }

  /** The characters `String.prototype.trim` removes: the ECMAScript
      WhiteSpace code points (tab, vertical tab, form feed, space, no-break
      space, byte order mark and the other space separators of category Zs)
      and the LineTerminator code points (LF, CR, LS, PS). */
  predicate IsWhitespace(c: char) {
    var n := c as int;
    n == 0x09 || n == 0x0A || n == 0x0B || n == 0x0C || n == 0x0D || n == 0x20
    || n == 0xA0 || n == 0x1680 || (0x2000 <= n <= 0x200A)
    || n == 0x2028 || n == 0x2029 || n == 0x202F || n == 0x205F
    || n == 0x3000 || n == 0xFEFF
  }

  /** Neither end of `s` is a whitespace character. */
  predicate Trimmed(s: string) {
    |s| > 0 ==> !IsWhitespace(s[0]) && !IsWhitespace(s[|s| - 1])
  }

  predicate AllWhitespace(s: string) {
    forall i :: 0 <= i < |s| ==> IsWhitespace(s[i])
  }

  /** Drops the leading whitespace: the result is the suffix of `s` that
      starts at its first non-whitespace character. */
  function TrimStart(s: string): (r: string)
    ensures |r| <= |s| && r == s[|s| - |r|..]
    ensures AllWhitespace(s[..|s| - |r|])
    ensures |r| > 0 ==> !IsWhitespace(r[0])
    decreases |s|
  {
    if |s| > 0 && IsWhitespace(s[0]) then TrimStart(s[1..]) else s
  }

  /** Drops the trailing whitespace: the result is the prefix of `s` that
      ends at its last non-whitespace character. */
  function TrimEnd(s: string): (r: string)
    ensures |r| <= |s| && r == s[..|r|]
    ensures AllWhitespace(s[|r|..])
    ensures |r| > 0 ==> !IsWhitespace(r[|r| - 1])
    decreases |s|
  {
    if |s| > 0 && IsWhitespace(s[|s| - 1]) then TrimEnd(s[..|s| - 1]) else s
  }

  /** `r` is the slice of `s` starting at `i`, and everything of `s`
      before and after it is whitespace. */
  predicate WhitespaceTrimAt(r: string, s: string, i: nat) {
    && i + |r| <= |s| && r == s[i..i + |r|]
    && AllWhitespace(s[..i]) && AllWhitespace(s[i + |r|..])
  }

  /** `String.prototype.trim`: only whitespace is removed, and only from
      the two ends; the leading part removed is what `TrimStart` drops. */
  function Trim(s: string): (r: string)
    ensures Trimmed(r)
    ensures |r| <= |s|
    ensures Trimmed(s) ==> r == s
    ensures WhitespaceTrimAt(r, s, |s| - |TrimStart(s)|)
  {
    TrimEndsOnlyWhitespace(s);
    TrimEnd(TrimStart(s))
  }

  /** Dropping whitespace from the front and then from the back removes
      only whitespace, and only at the ends. */
  lemma WhitespaceEndsCompose(s: string, u: string, r: string)
    requires |u| <= |s| && u == s[|s| - |u|..] && AllWhitespace(s[..|s| - |u|])
    requires |r| <= |u| && r == u[..|r|] && AllWhitespace(u[|r|..])
    ensures WhitespaceTrimAt(r, s, |s| - |u|)
  {
    var i := |s| - |u|;
    assert r == s[i..i + |r|];
    var tail := s[i + |r|..];
    forall k | 0 <= k < |tail| ensures IsWhitespace(tail[k]) {
      assert tail[k] == u[|r|..][k];
    }
  }

  /** Trimming drops exactly the whitespace `TrimStart` and `TrimEnd` drop. */
  lemma TrimEndsOnlyWhitespace(s: string)
    ensures WhitespaceTrimAt(TrimEnd(TrimStart(s)), s, |s| - |TrimStart(s)|)
  {
    WhitespaceEndsCompose(s, TrimStart(s), TrimEnd(TrimStart(s)));
  }

  /** The text handed to `JSON.parse`. */
  function CleanText(s: string): (r: string)
    ensures Trimmed(r)
    ensures |r| <= |s|
  {
    Trim(StripFences(s))
  }

  /** The text handed to the parser is the stripped reply with whitespace
      removed from its two ends and nothing else removed. */
  lemma CleanTrimsOnlyWhitespace(s: string)
    ensures var t := StripFences(s); var r := Trim(t);
      WhitespaceTrimAt(r, t, |t| - |TrimStart(t)|) && CleanText(s) == r
  {
    TrimOnlyWhitespace(StripFences(s));
  }

  /** `Trim`'s contract as a fact about one text, for callers whose text
      is itself the result of a recursive function. */
  lemma TrimOnlyWhitespace(t: string)
    ensures WhitespaceTrimAt(Trim(t), t, |t| - |TrimStart(t)|)
  {
  }

  // ---------------------------------------------------------------------
  // Stripping leaves no fence behind, and is the identity on fence-free text

  /** If `t` does not itself start with a fence, its stripped form can only
      start with two backticks when `t` does. */
  lemma LeadingTicksComeFromInput(t: string)
    requires !StartsWithFence(t)
    requires |StripFences(t)| >= 2 && StripFences(t)[0] == '`' && StripFences(t)[1] == '`'
    ensures |t| >= 2 && t[0] == '`' && t[1] == '`'
  {
    var rest := StripFences(t[1..]);
    assert StripFences(t) == [t[0]] + rest;
    assert |t[1..]| > 0;
    assert rest == [t[1]] + StripFences(t[2..]);
  }

  /** The output of `StripFences` never contains three backticks in a row:
      a backtick is kept only where no fence starts. */
  lemma {:induction false} StripLeavesNoFence(s: string)
    ensures !ContainsFence(StripFences(s))
    decreases |s|
  {
    if |s| == 0 {
    } else if StartsWithJsonFence(s) {
      StripLeavesNoFence(s[7..]);
    } else if StartsWithFence(s) {
      StripLeavesNoFence(s[3..]);
    } else {
      var t := s[1..];
      var rest := StripFences(t);
      StripLeavesNoFence(t);
      var r := [s[0]] + rest;
      assert StripFences(s) == r;
      assert r[1..] == rest;
      if StartsWithFence(r) {
        LeadingTicksComeFromInput(t);
        assert false;
      }
    }
  }

  /** Text without a fence passes through `StripFences` unchanged. */
  lemma {:induction false} StripFixesFenceFree(s: string)
    requires !ContainsFence(s)
    ensures StripFences(s) == s
    decreases |s|
  {
    if |s| > 0 {
      assert !ContainsFence(s[1..]);
      StripFixesFenceFree(s[1..]);
      assert s == [s[0]] + s[1..];
    }
  }

  /** Stripping twice is stripping once. */
  lemma StripIdempotent(s: string)
    ensures StripFences(StripFences(s)) == StripFences(s)
  {
    StripLeavesNoFence(s);
    StripFixesFenceFree(StripFences(s));
  }

  /** A suffix of fence-free text is fence-free. */
  lemma {:induction false} SuffixOfFenceFree(s: string, i: nat)
    requires i <= |s|
    requires !ContainsFence(s)
    ensures !ContainsFence(s[i..])
    decreases i
  {
    if i > 0 && |s| >= 3 {
      assert s[i..] == s[1..][i - 1..];
      SuffixOfFenceFree(s[1..], i - 1);
    }
  }

  /** A prefix of fence-free text is fence-free. */
  lemma {:induction false} PrefixOfFenceFree(s: string, j: nat)
    requires j <= |s|
    requires !ContainsFence(s)
    ensures !ContainsFence(s[..j])
    decreases |s|
  {
    if j >= 3 {
      var p := s[..j];
      assert p[0] == s[0] && p[1] == s[1] && p[2] == s[2];
      assert p[1..] == s[1..][..j - 1];
      PrefixOfFenceFree(s[1..], j - 1);
    }
  }

  /** A contiguous piece of fence-free text is fence-free. */
  lemma SliceOfFenceFree(s: string, i: nat, j: nat)
    requires i <= j <= |s|
    requires !ContainsFence(s)
    ensures !ContainsFence(s[i..j])
  {
    SuffixOfFenceFree(s, i);
    PrefixOfFenceFree(s[i..], j - i);
    assert s[i..][..j - i] == s[i..j];
  }

  /** Trimming fence-free text leaves it fence-free. */
  lemma TrimKeepsFenceFree(t: string)
    requires !ContainsFence(t)
    ensures !ContainsFence(Trim(t))
  {
    TrimmedKeepsFenceFree(t, Trim(t));
  }

  lemma TrimmedKeepsFenceFree(t: string, c: string)
    requires !ContainsFence(t)
    requires c == Trim(t)
    ensures !ContainsFence(c)
  {
    TrimOnlyWhitespace(t);
    FenceFreeSlice(t, c, |t| - |TrimStart(t)|);
  }

  /** `SliceOfFenceFree` for a slice given by its start and its contents. */
  lemma FenceFreeSlice(t: string, c: string, i: nat)
    requires !ContainsFence(t)
    requires i + |c| <= |t| && c == t[i..i + |c|]
    ensures !ContainsFence(c)
  {
    SliceOfFenceFree(t, i, i + |c|);
  }

  /** The text handed to the parser contains no fence. */
  lemma CleanLeavesNoFence(s: string)
    ensures !ContainsFence(CleanText(s))
  {
    StripLeavesNoFence(s);
    TrimKeepsFenceFree(StripFences(s));
  }

  /** Cleaning twice is cleaning once. */
  lemma CleanIdempotent(s: string)
    ensures CleanText(CleanText(s)) == CleanText(s)
  {
    var c := CleanText(s);
    CleanLeavesNoFence(s);
    StripFixesFenceFree(c);
  }

  /** Text with no fence and no surrounding whitespace is already clean. */
  lemma CleanFixesPlainText(s: string)
    requires !ContainsFence(s) && Trimmed(s)
    ensures CleanText(s) == s
  {
    StripFixesFenceFree(s);
  }

  // ---------------------------------------------------------------------
  // The reply shape the cleaning is written for: a fenced JSON payload

  /** A text that does not start with a backtick keeps its first character. */
  lemma StripKeepsPlainHead(s: string)
    requires |s| > 0 && s[0] != '`'
    ensures StripFences(s) == [s[0]] + StripFences(s[1..])
  {
  }

  /** The tail of a backtick-free text is backtick-free. */
  lemma NoBacktickTail(p: string)
    requires |p| > 0 && NoBacktick(p)
    ensures NoBacktick(p[1..])
  {
    forall i | 0 <= i < |p[1..]| ensures p[1..][i] != '`' {
      assert p[1..][i] == p[i + 1];
    }
  }

  /** A backtick-free prefix is copied through unchanged. */
  lemma {:induction false} StripPlainPrefix(p: string, t: string)
    requires NoBacktick(p)
    ensures StripFences(p + t) == p + StripFences(t)
    decreases |p|
  {
    if p == [] {
      assert p + t == t;
    } else {
      var q := p[1..];
      assert (p + t)[0] == p[0] && (p + t)[1..] == q + t;
      StripKeepsPlainHead(p + t);
      NoBacktickTail(p);
      StripPlainPrefix(q, t);
      assert [p[0]] + (q + StripFences(t)) == p + StripFences(t) by {
        assert [p[0]] + q == p;
      }
    }
  }

  /** A payload wrapped as ```` ```json … ``` ```` is recovered, trimmed. */
  lemma FencedPayloadRecovered(p: string)
    requires NoBacktick(p)
    ensures CleanText(JsonFence + p + Fence) == Trim(p)
  {
    var s := JsonFence + p + Fence;
    assert StartsWithJsonFence(s);
    assert s[7..] == p + Fence;
    StripPlainPrefix(p, Fence);
    assert StripFences(Fence) == StripFences(Fence[3..]);
    assert p + "" == p;
  }
}

=== FILE: wrappers.dfy ===
/** Optional values and success-or-failure values. */
module Wrappers {

  /** `None` plays the role of an absent (undefined or null) value. */
  datatype Option<+T> = None | Some(value: T)

  /** The outcome of a step that either produces a value or stops with an error. */
  datatype Result<+R, +E> = Success(value: R) | Failure(error: E)
}
